=== FILE: README.md ===
# Onitama and Filler rule engines in Dafny

This project models the two board-game rule engines of the web app: `OnitamaState` and `FillerState`.
A search library drives both engines through the same interface:
- `getCurrentTeam`;
- `getLegalMoves` (string tokens);
- `makeMove` (a new state, the old one untouched);
- `isTerminal` and `getReward`;
- a text label.

Every state is an immutable Dafny datatype and every operation is a pure function.
That the input state is never mutated is therefore true by construction.

- **Onitama** (`onitama_deck.dfy`, `onitama.dfy`, `onitama_codec.dfy`, `onitama_proofs.dfy`).
  - The game is played on a 5x5 board. Each side has four students and a master, and two movement cards. One more card is held in reserve.
  - The 32 cards and their offsets are the constant `OnitamaDeck.Deck`. Red adds an offset to a piece's row and column; Blue subtracts it.
  - Legal moves come from the two cards of the side to move. When no ordinary move exists, the side must pass with one of its cards.
  - The played card goes into reserve, and the old reserve takes its slot.
  - The game ends on the capture of a master, on a master reaching the opposing temple, or after 1000 moves.
  - Moves are tokens `"card,src,dst"` and `"pass card"`.
- **Filler** (`flood_fill.dfy`, `filler.dfy`, `filler_proofs.dfy`).
  - The game is played on a 7x7 board of six colours. Player 1 owns the region grown from the top-left cell, player 2 the region grown from the bottom-right cell.
  - A move names a colour that is on the board and that neither corner holds. The mover's region is flood-filled with that colour.
  - The flood fill is the source's recursive 4-way fill, with termination measured by the number of cells of the old colour. `FloodFill.FillRecoloursRegion` proves it recolours exactly the 4-connected region of the seed.
- **Shared pieces** (`common.dfy`, `decimal.dfy`).
  - `Option`, and counting with its lemmas.
  - Decimal `toString`, `parseInt` and `split` as the move tokens use them.

## Model

| member | source | states |
|---|---|---|
| `OnitamaDeck.InitializeCards` | src/games/Onitama.tsx:294-304 | from a shuffle of the edition's cards: two cards each, five different cards, all in the edition's range; the five cards dealt are the first five of the shuffle |
| `OnitamaProofs.NoNullOffset` | src/games/Onitama.tsx:159-194 | no card of the deck has the offset (0, 0) |
| `Onitama.NewState` | src/games/Onitama.tsx:196-202 | given board, cards and team are kept; absent ones take their defaults: the initial board, a distinct deal, and the reserve card's first mover |
| `Onitama.Initial` | src/games/Onitama.tsx:196-202 | a new game is well formed, has five different cards, has the reserve card's first mover to move, has move count 0, and is not over |
| `Onitama.CurrentTeam` | src/games/Onitama.tsx:204 | the letter is `R` exactly when Red is to move and `B` exactly when Blue is |
| `Onitama.Target` | src/games/Onitama.tsx:215-222 | an offset leads on board exactly when the row and column, moved by the offset (Red) or against it (Blue), stay within 0..4; the destination then has that row and column |
| `Onitama.OrdinaryMoves` | src/games/Onitama.tsx:210-231 | a move is generated exactly when its card is in the mover's hand, its source holds a mover's piece, one of the card's offsets leads to its destination on the board, and the destination holds no mover's piece |
| `Onitama.LegalMoves` | src/games/Onitama.tsx:206-239 | at least one move is always offered, and every move names a deck card and board cells |
| `OnitamaProofs.OrdinaryMovesAreLegal` | src/games/Onitama.tsx:210-227 | the ordinary moves offered are exactly the ordinary moves of the rules |
| `OnitamaProofs.LegalMoveGeometry` | src/games/Onitama.tsx:214-224 | an ordinary legal move starts on a mover's piece and ends off the mover's pieces, at the card offset added for Red or subtracted for Blue |
| `OnitamaProofs.PassRule` | src/games/Onitama.tsx:232-237 | passes are offered if and only if no ordinary move exists, and then the moves are exactly one pass per hand card, in hand order |
| `OnitamaProofs.LegalCardInHand` | src/games/Onitama.tsx:206-239 | every legal move plays a card of the mover's hand |
| `Common.FirstIndex` | src/games/Onitama.tsx:263 | the slot found for the played card holds that card, and no earlier slot does |
| `Onitama.MakeMove` | src/games/Onitama.tsx:241-266 | the turn passes and the counter rises by one; the card becomes the reserve and the old reserve takes the first slot holding it; the opponent's hand is kept; a pass keeps the board; a move empties the source, carries its piece to the destination and changes no other cell |
| `OnitamaProofs.LegalMoveRelocates` | src/games/Onitama.tsx:255-257 | a legal ordinary move never has source equal to destination, so the piece arrives and the source is empty |
| `OnitamaProofs.CardRotation` | src/games/Onitama.tsx:245-264 | playing a hand card keeps the multiset of the five cards, and five different cards stay five different cards |
| `OnitamaProofs.CardsConserved` | src/games/Onitama.tsx:258-264 | every legal move keeps the five cards in play and their distinctness |
| `OnitamaProofs.TurnAlternates` | src/games/Onitama.tsx:265 | every move hands the turn to the other side, and two moves give it back |
| `OnitamaProofs.PlayCountsMoves` | src/games/Onitama.tsx:265 | along a game of legal moves the counter rises by exactly one per move |
| `OnitamaProofs.DrawCapEndsPlay` | src/games/Onitama.tsx:306 | the position after 1000 legal moves is terminal |
| `Onitama.Reward` | src/games/Onitama.tsx:269 | the reward is 0 exactly on a draw and 1 otherwise |
| `OnitamaProofs.MoveKeepsMaster` | src/games/Onitama.tsx:305 | a move of the mover's own piece to a different cell it does not own, or a pass, from a game not yet over, never makes the opponent the winner |
| `OnitamaProofs.WinnerIsMover` | src/games/Onitama.tsx:268-269 | after a legal move from a game not yet over, a winner is always the side that just moved, so a decisive end has reward 1 for the last mover |
| `Onitama.InitialBoard` | src/games/Onitama.tsx:286-293 | Blue's students on row 0 with its master on cell 2, Red's students on row 4 with its master on cell 22, rows 1 to 3 empty |
| `OnitamaProofs.LabelAt` | src/games/Onitama.tsx:271-279 | after the four-character team prefix, the character of cell (r, c) sits at place 4 + 6r + c of the label, the rows being six places apart because of the `/` separators |
| `OnitamaProofs.LabelDeterminesPosition` | src/games/Onitama.tsx:271-284 | two states with the same label have the same side to move and the same board |
| `OnitamaCodec.ParseEncode` | src/games/Onitama.tsx:243-254 | reading back a generated `"card,src,dst"` or `"pass card"` token recovers exactly the move it was built from |
| `OnitamaCodec.EncodeInjective` | src/games/Onitama.tsx:225 | different moves never share a token |
| `OnitamaCodec.LegalMoveTokens` | src/games/Onitama.tsx:225-235 | the tokens offered are the `"card,src,dst"` / `"pass card"` texts of the legal moves, in order, and read back as them |
| `OnitamaCodec.MakeMoveToken` | src/games/Onitama.tsx:241-266 | playing an offered token makes the legal move whose token it is |
| `Decimal.FromNat` | src/games/Filler.tsx:77 | the decimal text of a number is a non-empty digit string whose value is the number, with no leading zero |
| `Decimal.ParseIntFromNat` | src/games/Filler.tsx:83 | `parseInt` of a number's decimal text, followed by anything that is not a digit, gives the number back |
| `Filler.NewState` | src/games/Filler.tsx:63-68 | a given board is kept; a missing board is the random colouring after the corner fix-up, so it has six colours and different corners; a missing team means player 1 is to move |
| `FillerProofs.NewGamePlayable` | src/games/Filler.tsx:63-68 | a new game starts with six colours, different corners and player 1 to move |
| `Filler.CurrentTeam` | src/games/Filler.tsx:70 | the letter is `1` exactly when player 1 is to move and `2` exactly when player 2 is |
| `Filler.MovesFrom` | src/games/Filler.tsx:76-78 | the colours offered from `k` on are exactly those from `k` to 5 on the board and held by neither corner, strictly increasing |
| `Filler.LegalMoves` | src/games/Filler.tsx:72-80 | a colour is offered exactly when it is below 6, on the board and held by neither corner; the colours are strictly increasing |
| `Filler.LegalMoveTokens` | src/games/Filler.tsx:72-80 | the tokens offered are the decimal texts of the legal colours and read back as them |
| `FillerProofs.LegalColour` | src/games/Filler.tsx:74-77 | a legal colour is below 6, is stored unchanged in a byte, and differs from both corners |
| `Filler.LegalTokenParses` | src/games/Filler.tsx:83 | an offered token reads back as a legal colour whose decimal text it is |
| `FloodFill.Neighbours` | src/games/Filler.tsx:126-132 | the fill goes on to exactly the on-board cells one row above or below, or one column left or right in the same row |
| `FloodFill.Fill` | src/games/Filler.tsx:121-133 | the fill keeps the board size, never adds a cell of the old colour, and changes only old-colour cells, each to the new colour |
| `FloodFill.FillRecoloursRegion` | src/games/Filler.tsx:121-133 | the fill from a seed recolours exactly the 4-connected region of the old colour containing the seed, and leaves every other cell alone |
| `FloodFill.FillAllRecolours` | src/games/Filler.tsx:129-132 | fills from several neighbours in turn recolour exactly the union of their regions on the board they started from |
| `FloodFill.SplitAtSeed` | src/games/Filler.tsx:122-132 | the seed's region is the seed plus the regions of its neighbours on the board where the seed is already recoloured |
| `Filler.MakeMove` | src/games/Filler.tsx:82-88 | the mover's corner region takes the chosen colour as a byte stores it, every other cell is kept, and the other side is to move |
| `Filler.MakeMoveToken` | src/games/Filler.tsx:82-88 | playing an offered token floods with the legal colour whose text it is |
| `FillerProofs.FloodChanges` | src/games/Filler.tsx:84-86 | the mover's corner takes the chosen colour, and a changed cell had the mover's colour and now has the chosen one |
| `FillerProofs.MoveEffect` | src/games/Filler.tsx:84-87 | after a move to a colour neither corner holds, the opponent's corner and every cell of the opponent's colour are kept, the opponent's colour count is unchanged, the chosen colour gains cells, the corners still differ, and the turn passes |
| `FillerProofs.TerminalIffNoMoves` | src/games/Filler.tsx:90-96 | a finished game offers no colour; on a six-colour board the game is finished exactly when no colour is offered |
| `FillerProofs.StepKeepsPlayable` | src/games/Filler.tsx:82-88 | playing an offered token from a six-colour board with different corners gives such a board again |
| `FillerProofs.PlayStaysPlayable` | src/games/Filler.tsx:90-96 | in every position of a game of offered tokens from such a board, the game is over exactly when no colour is offered |
| `Filler.InitializeBoard` | src/games/Filler.tsx:115-117 | the corners of the drawn board differ; only player 2's corner is changed, and only when the corners clashed |
| `FillerProofs.ScoreCount` | src/games/Filler.tsx:99-104 | the score is twice the number of cells of the colour minus the number of cells |
| `FillerProofs.RewardBounds` | src/games/Filler.tsx:98-108 | the reward is odd and lies in -49..49 |
| `FillerProofs.TerminalReward` | src/games/Filler.tsx:98-108 | at the end of a game with different corners, the reward is the last mover's colour count minus the other corner's colour count |

## Left out

- Rendering (both `render` functions) and the app shell around the engines are not modelled. This includes the hook that calls the search library and the search library itself.
- The Tic-tac-toe engine lives in a package that is not part of this model. There is no undo or replay controller in the source, and none is modelled.
- Randomness is a parameter:
  - the Onitama card shuffle is the `shuffled` argument, a permutation of the edition's card numbers;
  - the random Filler colouring is the `random` argument.
  - Only the slicing and the corner fix-up are modelled.
- Card names and colours are display data and are left out. Each card keeps its offsets and its first mover.
- Decimal.ParseInt: JavaScript `parseInt` also skips leading white space, takes a sign and `0x`, and yields NaN. The model reads the leading run of decimal digits and gives `None` otherwise. Offered tokens never exercise the difference.
- Onitama.NewState: requires a given reserve card to be a deck card when no team is given; the source then fails looking up the card's first mover.
- OnitamaCodec.Parse: a token that does not parse is not given to `makeMove`. `makeMove` is modelled on a `Move` value, and on tokens only through `MakeMoveToken`, which takes an offered token.
- Onitama.MakeMove: requires the card to be a deck card and the cells to be on the board. In the source, `makeMove` never reads the deck: a card outside it is stored as the reserve and fails only later, when `getLegalMoves` reads that card's offsets for the side then holding it. A cell outside the board is read as `undefined` or written past the 25 cells. Neither is modelled.
- Onitama.MakeMove: does not check that the move is legal; an illegal move is applied as written, as the code applies it.
- Onitama.Reward: ignores the team it is asked about, as the source does. `WinnerIsMover` shows why 1 is right for the last mover.
- Onitama.Label: holds only the side to move and the board; the card part of the label is commented out in the source, and the move counter never appears in it.
- Filler.MakeMove: requires the stored colour to differ from the mover's corner colour. Otherwise the source's recursion never ends.
- Filler.MakeMove: a token that `parseInt` turns into NaN would be stored as 0 in a byte; that is not modelled. Colours are naturals stored modulo 256, which matches a byte store for the non-negative values tokens carry.
- Filler.Reward: the reward is the integer cell difference the code computes, from the last mover's side.
- Filler.IsTerminal: the end test is "every cell has a corner colour", as in the code.

=== FILE: common.dfy ===
/** Shared vocabulary for both rule engines. */
module Common {

  /** A value that may be absent: an empty board cell, a failed parse, an off-board destination. */
  datatype Option<+T> = None | Some(value: T)

  /** Number of positions of `s` that hold `x`. */
  function Count<T(==)>(s: seq<T>, x: T): (n: nat)
    ensures n <= |s|
    ensures n == 0 <==> x !in s
  {
    if |s| == 0 then 0 else (if s[0] == x then 1 else 0) + Count(s[1..], x)
  }

  /** `indexOf`: the first position of `s` that holds `x`. */
  function FirstIndex<T(==)>(s: seq<T>, x: T): (i: nat)
    requires x in s
    ensures i < |s| && s[i] == x && x !in s[..i]
  {
    if s[0] == x then 0
    else
      var i := FirstIndex(s[1..], x);
      assert s[..i + 1] == [s[0]] + s[1..][..i];
      i + 1
  }

  /** `s` with the first occurrence of `x` replaced by `y`; `s` itself when `x` does not occur. */
  function ReplaceFirst<T(==)>(s: seq<T>, x: T, y: T): (r: seq<T>)
    ensures |r| == |s|
    ensures x !in s ==> r == s
    ensures x in s ==> exists i :: 0 <= i < |s| && s[i] == x && x !in s[..i] && r == s[i := y]
  {
    if x in s then s[FirstIndex(s, x) := y] else s
  }

  /** Overwriting one position changes the number of `x`s by at most one, as expected. */
  lemma {:induction false} CountUpdate<T>(s: seq<T>, i: nat, v: T, x: T)
    requires i < |s|
    ensures Count(s[i := v], x) == Count(s, x) - (if s[i] == x then 1 else 0) + (if v == x then 1 else 0)
  {
    if i > 0 {
      assert s[i := v][1..] == s[1..][i - 1 := v];
      CountUpdate(s[1..], i - 1, v, x);
    } else {
      assert s[i := v][1..] == s[1..];
    }
  }

  /** Positions that change never hold `x` before or after, so the number of `x`s stays the same. */
  lemma {:induction false} CountUnchanged<T>(a: seq<T>, b: seq<T>, x: T)
    requires |a| == |b|
    requires forall k :: 0 <= k < |a| && a[k] != b[k] ==> a[k] != x && b[k] != x
    ensures Count(a, x) == Count(b, x)
  {
    if |a| > 0 {
      CountUnchanged(a[1..], b[1..], x);
    }
  }

  /** Every `x` stays and one more position becomes `x`, so the number of `x`s grows. */
  lemma {:induction false} CountGrows<T>(a: seq<T>, b: seq<T>, x: T, i: nat)
    requires |a| == |b| && i < |a|
    requires forall k :: 0 <= k < |a| && a[k] == x ==> b[k] == x
    requires a[i] != x && b[i] == x
    ensures Count(b, x) > Count(a, x)
  {
    if i > 0 {
      CountGrows(a[1..], b[1..], x, i - 1);
    } else {
      CountMonotone(a[1..], b[1..], x);
    }
  }

  lemma {:induction false} CountMonotone<T>(a: seq<T>, b: seq<T>, x: T)
    requires |a| == |b|
    requires forall k :: 0 <= k < |a| && a[k] == x ==> b[k] == x
    ensures Count(b, x) >= Count(a, x)
  {
    if |a| > 0 {
      CountMonotone(a[1..], b[1..], x);
    }
  }
}

=== FILE: decimal.dfy ===
/**
  Decimal text for non-negative integers, the way the games' move tokens use it:
  template-literal / `toString` formatting, a `parseInt` that reads the leading
  run of decimal digits, and `split` on a one-character separator.
*/
module Decimal {
  import opened Common

  predicate IsDigit(ch: char) { '0' <= ch <= '9' }

  predicate AllDigits(s: string) { forall k :: 0 <= k < |s| ==> IsDigit(s[k]) }

  function DigitValue(ch: char): (d: nat)
    requires IsDigit(ch)
    ensures d < 10
  {
    (ch as int) - ('0' as int)
  }

  function DigitChar(d: nat): (ch: char)
    requires d < 10
    ensures IsDigit(ch) && DigitValue(ch) == d
  {
    (('0' as int) + d) as char
  }

  /** Value of a string of decimal digits, most significant digit first. */
  function ValueOf(s: string): nat
    requires AllDigits(s)
  {
    if |s| == 0 then 0 else ValueOf(s[..|s| - 1]) * 10 + DigitValue(s[|s| - 1])
  }

  /** The canonical decimal text of `n`: no sign, no leading zeros. */
  function FromNat(n: nat): (s: string)
    ensures |s| > 0 && AllDigits(s)
    ensures ValueOf(s) == n
    ensures s[0] == '0' ==> s == "0"
  {
    if n < 10 then [DigitChar(n)]
    else
      var p := FromNat(n / 10);
      var s := p + [DigitChar(n % 10)];
      assert s[..|s| - 1] == p;
      s
  }

  /** The longest prefix of `s` made of decimal digits. */
  function DigitPrefix(s: string): (p: string)
    ensures p <= s && AllDigits(p)
    ensures |p| < |s| ==> !IsDigit(s[|p|])
  {
    if |s| == 0 || !IsDigit(s[0]) then ""
    else [s[0]] + DigitPrefix(s[1..])
  }

  /** `parseInt` on text that starts with a digit run; `None` stands for NaN. */
  function ParseInt(s: string): (r: Option<nat>)
    ensures r.Some? <==> |s| > 0 && IsDigit(s[0])
  {
    var p := DigitPrefix(s);
    if |p| == 0 then None else Some(ValueOf(p))
  }

  /** `s.split(sep)`: the maximal separator-free pieces, empty ones included. */
  function Split(s: string, sep: char): (parts: seq<string>)
    ensures |parts| > 0
  {
    if |s| == 0 then [""]
    else
      var rest := Split(s[1..], sep);
      if s[0] == sep then [""] + rest else [[s[0]] + rest[0]] + rest[1..]
  }

  function StartsWith(s: string, prefix: string): bool
  {
    prefix <= s
  }

  /** Reading back the decimal text of `n`, followed by anything that is not a digit, gives `n`. */
  lemma ParseIntFromNat(n: nat, rest: string)
    requires |rest| == 0 || !IsDigit(rest[0])
    ensures ParseInt(FromNat(n) + rest) == Some(n)
  {
    DigitPrefixOf(FromNat(n), rest);
  }

  /** A digit run followed by a non-digit (or nothing) is exactly the digit prefix. */
  lemma {:induction false} DigitPrefixOf(d: string, rest: string)
    requires AllDigits(d)
    requires |rest| == 0 || !IsDigit(rest[0])
    ensures DigitPrefix(d + rest) == d
    decreases |d|
  {
    if |d| == 0 {
      assert d + rest == rest;
    } else {
      assert (d + rest)[1..] == d[1..] + rest;
      DigitPrefixOf(d[1..], rest);
      assert d == [d[0]] + d[1..];
    }
  }

  /** Splitting a separator-free piece followed by more text keeps that piece whole. */
  lemma {:induction false} SplitPiece(a: string, t: string, sep: char)
    requires sep !in a
    ensures Split(a + t, sep) == [a + Split(t, sep)[0]] + Split(t, sep)[1..]
    decreases |a|
  {
    if |a| > 0 {
      assert (a + t)[1..] == a[1..] + t;
      SplitPiece(a[1..], t, sep);
      assert [a[0]] + (a[1..] + Split(t, sep)[0]) == a + Split(t, sep)[0];
    } else {
      var parts := Split(t, sep);
      assert a == "";
      assert a + t == t;
      assert a + parts[0] == parts[0];
      assert parts == [parts[0]] + parts[1..];
    }
  }

  lemma SplitFirst(a: string, rest: string, sep: char)
    requires sep !in a
    ensures Split(a + [sep] + rest, sep) == [a] + Split(rest, sep)
  {
    var t := [sep] + rest;
    assert a + [sep] + rest == a + t;
    SplitPiece(a, t, sep);
    assert t[1..] == rest;
    assert Split(t, sep) == [""] + Split(rest, sep);
    assert a + "" == a;
  }

  lemma SplitWhole(a: string, sep: char)
    requires sep !in a
    ensures Split(a, sep) == [a]
  {
    assert a + "" == a;
    SplitPiece(a, "", sep);
  }

  lemma DigitsHaveNo(s: string, ch: char)
    requires AllDigits(s) && !IsDigit(ch)
    ensures ch !in s
  {
  }
}

=== FILE: filler.dfy ===
/**
  The Filler rule engine: a 7x7 board of six colours. Player 1 owns the region
  grown from the top-left cell, player 2 the region grown from the bottom-right
  cell; a move picks a colour and floods the mover's region with it.
*/
module Filler {
  import opened Common
  import opened Decimal
  import opened FloodFill

  const ColorCount: nat := 6
  /** The bottom-right cell, player 2's anchor. */
  const LastCell: nat := Cells - 1
  /** Cells are stored in a byte array, so a stored colour is reduced modulo 256. */
  const ByteRange: nat := 256

  /** `team` is true when player 1 is to move. */
  datatype State = State(board: seq<nat>, team: bool)

  predicate WellFormed(s: State)
  {
    |s.board| == Cells && forall k :: 0 <= k < Cells ==> s.board[k] < ByteRange
  }

  /** Every cell holds one of the six colours. */
  predicate InPalette(b: seq<nat>)
  {
    forall k :: 0 <= k < |b| ==> b[k] < ColorCount
  }

  /** `getCurrentTeam`. */
  function CurrentTeam(s: State): (c: char)
    ensures c == '1' <==> s.team
    ensures c == '2' <==> !s.team
  {
    if s.team then '1' else '2'
  }

  /** The cell the side to move floods from. */
  function Anchor(team: bool): nat
  {
    if team then 0 else LastCell
  }

  /** The colours `k`..5 that are on the board and held by neither corner, in increasing order. */
  function MovesFrom(b: seq<nat>, k: nat): (ms: seq<nat>)
    requires |b| == Cells && k <= ColorCount
    ensures forall c :: c in ms <==> k <= c < ColorCount && c != b[0] && c != b[LastCell] && c in b
    ensures forall i, j :: 0 <= i < j < |ms| ==> ms[i] < ms[j]
    decreases ColorCount - k
  {
    if k == ColorCount then []
    else
      var rest := MovesFrom(b, k + 1);
      forall j | 0 <= j < |rest|
        ensures rest[j] > k
      {
        assert rest[j] in rest;
      }
      if k != b[0] && k != b[LastCell] && k in b then [k] + rest else rest
  }

  /** `getLegalMoves`, as colour numbers. */
  function LegalMoves(s: State): (ms: seq<nat>)
    requires WellFormed(s)
    ensures forall c :: c in ms <==> c < ColorCount && c != s.board[0] && c != s.board[LastCell] && c in s.board
    ensures forall i, j :: 0 <= i < j < |ms| ==> ms[i] < ms[j]
  {
    MovesFrom(s.board, 0)
  }

  /** `getLegalMoves` as the source returns it: the colours in decimal. */
  function LegalMoveTokens(s: State): (toks: seq<string>)
    requires WellFormed(s)
    ensures |toks| == |LegalMoves(s)|
    ensures forall k :: 0 <= k < |toks| ==> ParseInt(toks[k]) == Some(LegalMoves(s)[k]) && toks[k] == FromNat(LegalMoves(s)[k])
  {
    var ms := LegalMoves(s);
    forall k | 0 <= k < |ms|
      ensures ParseInt(FromNat(ms[k])) == Some(ms[k])
    {
      assert FromNat(ms[k]) + "" == FromNat(ms[k]);
      ParseIntFromNat(ms[k], "");
    }
    seq(|ms|, k requires 0 <= k < |ms| => FromNat(ms[k]))
  }

  /**
    `makeMove(color)`: a copy of the board with the mover's region, the
    region of the anchor's current colour containing the anchor, flooded with
    the new colour; then the other side is to move. The flood only terminates
    when the stored new colour differs from the anchor's colour, which every
    legal move guarantees.
  */
  function MakeMove(s: State, color: nat): (t: State)
    requires WellFormed(s) && color % ByteRange != s.board[Anchor(s.team)]
    ensures WellFormed(t) && t.team == !s.team
    ensures forall j :: 0 <= j < Cells ==>
              t.board[j] == (if Linked(s.board, s.board[Anchor(s.team)], Anchor(s.team), j) then color % ByteRange else s.board[j])
  {
    var anchor := Anchor(s.team);
    var newColor := color % ByteRange;
    FillRecoloursRegion(s.board, anchor, s.board[anchor], newColor);
    State(Fill(s.board, anchor, s.board[anchor], newColor), !s.team)
  }

  /** A colour of the palette is stored unchanged. */
  lemma PaletteFitsByte(c: nat)
    requires c < ColorCount
    ensures c % ByteRange == c
  {
  }

  /** A token `getLegalMoves` offered reads back as the legal colour it was built from. */
  lemma LegalTokenParses(s: State, tok: string)
    requires WellFormed(s) && tok in LegalMoveTokens(s)
    ensures ParseInt(tok).Some? && ParseInt(tok).value in LegalMoves(s) && FromNat(ParseInt(tok).value) == tok
    ensures ParseInt(tok).value % ByteRange == ParseInt(tok).value
  {
    var ms, toks := LegalMoves(s), LegalMoveTokens(s);
    var k :| 0 <= k < |toks| && toks[k] == tok;
    var c := ms[k];
    assert ParseInt(tok) == Some(c);
    assert FromNat(c) == tok;
    assert c in ms;
    PaletteFitsByte(c);
  }

  /** `makeMove` on a token `getLegalMoves` offered: it plays the colour the token was built from. */
  function MakeMoveToken(s: State, tok: string): (t: State)
    requires WellFormed(s) && tok in LegalMoveTokens(s)
    ensures exists c :: c in LegalMoves(s) && c % ByteRange == c && FromNat(c) == tok && t == MakeMove(s, c)
  {
    LegalTokenParses(s, tok);
    MakeMove(s, ParseInt(tok).value)
  }

  /** `isTerminal`: every cell has the colour of one of the two corners. */
  predicate IsTerminal(s: State)
    requires |s.board| == Cells
  {
    forall k :: 0 <= k < Cells ==> s.board[k] == s.board[0] || s.board[k] == s.board[LastCell]
  }

  /** One point for each cell of colour `c`, minus one for every other cell. */
  function Score(b: seq<nat>, c: nat): int
  {
    if |b| == 0 then 0 else (if b[0] == c then 1 else -1) + Score(b[1..], c)
  }

  /**
    `getReward`: the score of player 1's colour, negated when player 1 is to
    move, that is, taken from the side of the player who moved last.
  */
  function Reward(s: State): int
    requires |s.board| == Cells
  {
    var score := Score(s.board, s.board[0]);
    if s.team then -score else score
  }

  /** `_initializeBoard` after the random colouring `random`: player 2's corner is bumped to the next colour on a clash. */
  function InitializeBoard(random: seq<nat>): (b: seq<nat>)
    requires |random| == Cells && InPalette(random)
    ensures |b| == Cells && InPalette(b)
    ensures b[0] != b[LastCell]
    ensures b[..LastCell] == random[..LastCell]
    ensures random[0] != random[LastCell] ==> b == random
  {
    if random[0] == random[LastCell] then random[LastCell := (random[LastCell] + 1) % ColorCount]
    else random
  }

  /** The constructor: a missing board is drawn from `random`, a missing team is player 1. */
  function NewState(board: Option<seq<nat>>, team: Option<bool>, random: seq<nat>): (s: State)
    requires board.None? ==> |random| == Cells && InPalette(random)
    ensures board.Some? ==> s.board == board.value
    ensures board.None? ==> WellFormed(s) && InPalette(s.board) && s.board[0] != s.board[LastCell]
    ensures board.None? ==> s.board == InitializeBoard(random)
    ensures s.team == (team.None? || team.value)
  {
    var b := if board.Some? then board.value else InitializeBoard(random);
    State(b, if team.Some? then team.value else true)
  }
}

=== FILE: filler_proofs.dfy ===
/** Properties of the Filler rule engine that relate several of its operations. */
module FillerProofs {
  import opened Common
  import opened Decimal
  import opened FloodFill
  import opened Filler

  /** The positions a game reaches: six colours on the board, and the two corners differ. */
  predicate Playable(s: State)
  {
    WellFormed(s) && InPalette(s.board) && s.board[0] != s.board[LastCell]
  }

  /**
    A finished game offers no colour; with the six colours only, the converse
    holds too, so the game is over exactly when no colour can be chosen.
  */
  lemma TerminalIffNoMoves(s: State)
    requires WellFormed(s)
    ensures IsTerminal(s) ==> |LegalMoves(s)| == 0
    ensures InPalette(s.board) ==> (|LegalMoves(s)| == 0 <==> IsTerminal(s))
  {
  }

  /** A legal colour is stored as is and differs from both corners. */
  lemma LegalColour(s: State, c: nat)
    requires WellFormed(s) && c in LegalMoves(s)
    ensures c < ColorCount && c % ByteRange == c
    ensures c != s.board[Anchor(s.team)] && c != s.board[Anchor(!s.team)]
  {
    PaletteFitsByte(c);
  }

  /**
    Flooding with a colour other than the corner's own gives the mover's corner the chosen colour, and changes only
    cells of the mover's old colour, each to the chosen colour.
  */
  lemma FloodChanges(s: State, c: nat)
    requires WellFormed(s) && c % ByteRange == c && c != s.board[Anchor(s.team)]
    ensures MakeMove(s, c).board[Anchor(s.team)] == c
    ensures forall j :: 0 <= j < Cells && MakeMove(s, c).board[j] != s.board[j] ==>
              s.board[j] == s.board[Anchor(s.team)] && MakeMove(s, c).board[j] == c
  {
  }

  /** A move to a colour neither corner holds leaves the opponent's corner and colour alone. */
  lemma OpponentUntouched(s: State, c: nat)
    requires Playable(s) && c < ColorCount && c != s.board[0] && c != s.board[LastCell]
    ensures MakeMove(s, c).board[Anchor(!s.team)] == s.board[Anchor(!s.team)]
    ensures forall j :: 0 <= j < Cells && s.board[j] == s.board[Anchor(!s.team)] ==> MakeMove(s, c).board[j] == s.board[j]
    ensures Count(MakeMove(s, c).board, s.board[Anchor(!s.team)]) == Count(s.board, s.board[Anchor(!s.team)])
  {
    PaletteFitsByte(c);
    FloodChanges(s, c);
    CountUnchanged(s.board, MakeMove(s, c).board, s.board[Anchor(!s.team)]);
  }

  /** A move to a colour neither corner holds gives the mover's corner that colour and at least one more cell of it. */
  lemma ChosenGrows(s: State, c: nat)
    requires Playable(s) && c < ColorCount && c != s.board[0] && c != s.board[LastCell]
    ensures MakeMove(s, c).board[Anchor(s.team)] == c
    ensures Count(MakeMove(s, c).board, c) > Count(s.board, c)
    ensures InPalette(MakeMove(s, c).board)
  {
    PaletteFitsByte(c);
    FloodChanges(s, c);
    CountGrows(s.board, MakeMove(s, c).board, c, Anchor(s.team));
  }

  /**
    A move from a playable position to a colour neither corner holds, as every
    legal move is: the mover's corner takes the chosen colour, the opponent's
    corner and every cell of the opponent's colour stay as they were, the
    chosen colour gains at least one cell, the result is playable again, and
    the other side is to move.
  */
  lemma MoveEffect(s: State, c: nat)
    requires Playable(s) && c < ColorCount && c != s.board[0] && c != s.board[LastCell]
    ensures MakeMove(s, c).board[Anchor(s.team)] == c
    ensures MakeMove(s, c).board[Anchor(!s.team)] == s.board[Anchor(!s.team)]
    ensures forall j :: 0 <= j < Cells && s.board[j] == s.board[Anchor(!s.team)] ==> MakeMove(s, c).board[j] == s.board[j]
    ensures Count(MakeMove(s, c).board, s.board[Anchor(!s.team)]) == Count(s.board, s.board[Anchor(!s.team)])
    ensures Count(MakeMove(s, c).board, c) > Count(s.board, c)
    ensures Playable(MakeMove(s, c))
    ensures CurrentTeam(MakeMove(s, c)) != CurrentTeam(s)
  {
    OpponentUntouched(s, c);
    ChosenGrows(s, c);
  }

  /** The score counts one per cell of the colour and minus one per other cell. */
  lemma {:induction false} ScoreCount(b: seq<nat>, c: nat)
    ensures Score(b, c) == 2 * Count(b, c) - |b|
  {
    if |b| > 0 {
      ScoreCount(b[1..], c);
    }
  }

  /** The reward is odd and never exceeds the number of cells either way. */
  lemma RewardBounds(s: State)
    requires |s.board| == Cells
    ensures -(Cells as int) <= Reward(s) <= Cells
    ensures Reward(s) % 2 == 1
  {
    ScoreCount(s.board, s.board[0]);
  }

  /** On a board of two colours, the two counts add up to the whole board. */
  lemma {:induction false} CountPartition(b: seq<nat>, x: nat, y: nat)
    requires x != y
    requires forall k :: 0 <= k < |b| ==> b[k] == x || b[k] == y
    ensures Count(b, x) + Count(b, y) == |b|
  {
    if |b| > 0 {
      CountPartition(b[1..], x, y);
    }
  }

  /**
    At the end of a game the reward is the last mover's cells minus the other
    side's cells, counted by corner colour: positive exactly when the side that
    moved last holds more of the board.
  */
  lemma TerminalReward(s: State)
    requires WellFormed(s) && IsTerminal(s) && s.board[0] != s.board[LastCell]
    ensures Reward(s) == Count(s.board, s.board[Anchor(!s.team)]) - Count(s.board, s.board[Anchor(s.team)])
  {
    ScoreCount(s.board, s.board[0]);
    CountPartition(s.board, s.board[0], s.board[LastCell]);
  }

  /** `t` follows from `s` by playing one of the tokens `getLegalMoves` offers. */
  ghost predicate Step(s: State, t: State)
  {
    WellFormed(s) && exists tok :: tok in LegalMoveTokens(s) && t == MakeMoveToken(s, tok)
  }

  lemma StepKeepsPlayable(s: State, t: State)
    requires Playable(s) && Step(s, t)
    ensures Playable(t)
  {
    var tok :| tok in LegalMoveTokens(s) && t == MakeMoveToken(s, tok);
    var c :| c in LegalMoves(s) && FromNat(c) == tok && t == MakeMove(s, c);
    LegalColour(s, c);
    MoveEffect(s, c);
  }

  /** `states` is a game: each state follows from the previous one by a legal move. */
  ghost predicate IsPlay(states: seq<State>)
  {
    forall k :: 0 <= k < |states| - 1 ==> Step(states[k], states[k + 1])
  }

  /**
    Every position of a game that starts from a playable position is playable,
    so at every point the game is over exactly when no colour can be chosen.
  */
  lemma {:induction false} PlayStaysPlayable(states: seq<State>, k: nat)
    requires IsPlay(states) && k < |states| && Playable(states[0])
    ensures Playable(states[k])
    ensures IsTerminal(states[k]) <==> |LegalMoves(states[k])| == 0
  {
    if k > 0 {
      PlayStaysPlayable(states, k - 1);
      StepKeepsPlayable(states[k - 1], states[k]);
    }
    TerminalIffNoMoves(states[k]);
  }

  /** A new game starts from a playable position with player 1 to move. */
  lemma NewGamePlayable(random: seq<nat>)
    requires |random| == Cells && InPalette(random)
    ensures Playable(NewState(None, None, random)) && CurrentTeam(NewState(None, None, random)) == '1'
  {
  }
}

=== FILE: flood_fill.dfy ===
/**
  Recursive 4-way flood fill on the 7x7 Filler grid, and the proof that it
  recolours exactly the connected region of the seed's colour.

  Cells are numbered row by row, 0..48. The fill visits the neighbours of a
  recoloured cell in the order up, down, left, right, each on the board as the
  previous visits left it.
*/
module FloodFill {
  import opened Common

  const Size: nat := 7
  const Cells: nat := 49

  /** The cells the fill visits next from `i`, in the order it visits them. */
  function Neighbours(i: nat): (ns: seq<int>)
    requires i < Cells
    ensures forall j :: j in ns <==>
              && 0 <= j < Cells
              && ((j / Size == i / Size && (j == i - 1 || j == i + 1)) || j == i - Size || j == i + Size)
  {
    var row := i / Size;
    var col := i % Size;
    (if row > 0 then [i - Size] else [])
    + (if row < Size - 1 then [i + Size] else [])
    + (if col > 0 then [i - 1] else [])
    + (if col < Size - 1 then [i + 1] else [])
  }

  predicate Adjacent(i: int, j: int)
  {
    0 <= i < Cells && j in Neighbours(i)
  }

  /** `p` is a walk over adjacent cells that all have colour `c` on board `b`. */
  ghost predicate IsPath(b: seq<nat>, c: nat, p: seq<int>)
  {
    && |p| > 0
    && (forall k :: 0 <= k < |p| ==> 0 <= p[k] < |b| && b[p[k]] == c)
    && (forall k :: 0 <= k < |p| - 1 ==> Adjacent(p[k], p[k + 1]))
  }

  /** `j` is in the 4-connected region of colour `c` that contains `i`. */
  ghost predicate Linked(b: seq<nat>, c: nat, i: int, j: int)
  {
    exists p :: IsPath(b, c, p) && p[0] == i && p[|p| - 1] == j
  }

  /**
    `_floodFill(board, i, oldColor, newColor)`: nothing happens off the board
    or on a cell that is not `oldColor`; otherwise the cell takes `newColor`
    and the fill continues from its neighbours. The recursion ends because
    every recolouring removes one `oldColor` cell, which needs `newColor` to
    differ from `oldColor`.
  */
  function Fill(b: seq<nat>, i: int, oldColor: nat, newColor: nat): (r: seq<nat>)
    requires |b| == Cells && oldColor != newColor
    ensures |r| == Cells
    ensures Count(r, oldColor) <= Count(b, oldColor)
    ensures forall j :: 0 <= j < Cells && r[j] != b[j] ==> b[j] == oldColor && r[j] == newColor
    decreases Count(b, oldColor), 0, 0
  {
    if i < 0 || i >= Cells || b[i] != oldColor then b
    else
      CountUpdate(b, i, newColor, oldColor);
      FillAll(b[i := newColor], Neighbours(i), oldColor, newColor)
  }

  /** The fills started from each of `ns` in turn. */
  function FillAll(b: seq<nat>, ns: seq<int>, oldColor: nat, newColor: nat): (r: seq<nat>)
    requires |b| == Cells && oldColor != newColor
    ensures |r| == Cells
    ensures Count(r, oldColor) <= Count(b, oldColor)
    ensures forall j :: 0 <= j < Cells && r[j] != b[j] ==> b[j] == oldColor && r[j] == newColor
    decreases Count(b, oldColor), 1, |ns|
  {
    if |ns| == 0 then b
    else FillAll(Fill(b, ns[0], oldColor, newColor), ns[1..], oldColor, newColor)
  }

  lemma PathSuffix(b: seq<nat>, c: nat, p: seq<int>, k: nat)
    requires IsPath(b, c, p) && k < |p|
    ensures IsPath(b, c, p[k..]) && p[k..][0] == p[k] && p[k..][|p| - k - 1] == p[|p| - 1]
  {
  }

  lemma PathJoin(b: seq<nat>, c: nat, p: seq<int>, q: seq<int>)
    requires IsPath(b, c, p) && IsPath(b, c, q) && Adjacent(p[|p| - 1], q[0])
    ensures IsPath(b, c, p + q) && (p + q)[0] == p[0] && (p + q)[|p| + |q| - 1] == q[|q| - 1]
  {
  }

  lemma LinkedBy(b: seq<nat>, c: nat, p: seq<int>)
    requires IsPath(b, c, p)
    ensures Linked(b, c, p[0], p[|p| - 1])
  {
  }

  /** A walk to `y`, a step to the adjacent `y2` and a walk on to `z` make a walk from `x` to `z`. */
  lemma LinkStep(b: seq<nat>, c: nat, x: int, y: int, y2: int, z: int)
    requires Linked(b, c, x, y) && Adjacent(y, y2) && Linked(b, c, y2, z)
    ensures Linked(b, c, x, z)
  {
    var p :| IsPath(b, c, p) && p[0] == x && p[|p| - 1] == y;
    var q :| IsPath(b, c, q) && q[0] == y2 && q[|q| - 1] == z;
    PathJoin(b, c, p, q);
    LinkedBy(b, c, p + q);
  }

  /** A walk that avoids cell `i` does not notice what `i` holds. */
  lemma PathAvoiding(b: seq<nat>, c: nat, p: seq<int>, i: int, v: nat)
    requires IsPath(b, c, p) && 0 <= i < |b|
    requires forall m :: 0 <= m < |p| ==> p[m] != i
    ensures IsPath(b[i := v], c, p)
  {
  }

  /** Two walks that meet at `y` make one walk. */
  lemma LinkTrans(b: seq<nat>, c: nat, x: int, y: int, z: int)
    requires Linked(b, c, x, y) && Linked(b, c, y, z)
    ensures Linked(b, c, x, z)
  {
    var q :| IsPath(b, c, q) && q[0] == y && q[|q| - 1] == z;
    if |q| > 1 {
      PathSuffix(b, c, q, 1);
      LinkedBy(b, c, q[1..]);
      assert Adjacent(q[0], q[1]);
      LinkStep(b, c, x, y, q[1], z);
    }
  }

  /** A region is closed along a path: reaching one of its cells reaches its end. */
  lemma LinkAlong(b: seq<nat>, c: nat, x: int, p: seq<int>, k: nat)
    requires IsPath(b, c, p) && k < |p|
    ensures Linked(b, c, x, p[k]) ==> Linked(b, c, x, p[|p| - 1])
  {
    if Linked(b, c, x, p[k]) {
      PathSuffix(b, c, p, k);
      LinkedBy(b, c, p[k..]);
      LinkTrans(b, c, x, p[k], p[|p| - 1]);
    }
  }

  /** Only a cell of colour `c` starts a region of colour `c`. */
  lemma LinkedStart(b: seq<nat>, c: nat, i: int, j: int)
    ensures Linked(b, c, i, j) ==> 0 <= i < |b| && b[i] == c
  {
  }

  function LastIndexOf(p: seq<int>, x: int): (k: nat)
    requires x in p
    ensures k < |p| && p[k] == x
    ensures forall m :: k < m < |p| ==> p[m] != x
  {
    if p[|p| - 1] == x then |p| - 1
    else
      assert x in p[..|p| - 1] by {
        var m :| 0 <= m < |p| && p[m] == x;
        assert p[..|p| - 1][m] == x;
      }
      LastIndexOf(p[..|p| - 1], x)
  }

  /** A path from the seed to another cell leaves the seed for good at some neighbour. */
  lemma SeedOut(b: seq<nat>, i: int, oldColor: nat, newColor: nat, j: int)
    requires |b| == Cells && 0 <= i < Cells && oldColor != newColor
    requires Linked(b, oldColor, i, j) && j != i
    ensures exists n :: n in Neighbours(i) && Linked(b[i := newColor], oldColor, n, j)
  {
    var p :| IsPath(b, oldColor, p) && p[0] == i && p[|p| - 1] == j;
    var k := LastIndexOf(p, i);
    PathSuffix(b, oldColor, p, k + 1);
    var q := p[k + 1..];
    assert forall m :: 0 <= m < |q| ==> q[m] == p[k + 1 + m];
    PathAvoiding(b, oldColor, q, i, newColor);
    LinkedBy(b[i := newColor], oldColor, q);
    assert Adjacent(p[k], p[k + 1]);
  }

  /** A neighbour's region, on the board where the seed is recoloured, joins the seed's region. */
  lemma SeedIn(b: seq<nat>, i: int, oldColor: nat, newColor: nat, n: int, j: int)
    requires |b| == Cells && 0 <= i < Cells && b[i] == oldColor && oldColor != newColor
    requires n in Neighbours(i) && Linked(b[i := newColor], oldColor, n, j)
    ensures Linked(b, oldColor, i, j)
  {
    var b1 := b[i := newColor];
    var q :| IsPath(b1, oldColor, q) && q[0] == n && q[|q| - 1] == j;
    PathAvoiding(b1, oldColor, q, i, oldColor);
    assert b1[i := oldColor] == b;
    LinkedBy(b, oldColor, q);
    LinkedBy(b, oldColor, [i]);
    LinkStep(b, oldColor, i, i, n, j);
  }

  /**
    The region of the seed `i` is the seed together with the regions, on the
    board where the seed already has its new colour, of the seed's neighbours.
  */
  lemma SplitAtSeed(b: seq<nat>, i: int, oldColor: nat, newColor: nat, j: int)
    requires |b| == Cells && 0 <= i < Cells && b[i] == oldColor && oldColor != newColor
    ensures Linked(b, oldColor, i, j) <==> j == i || exists n :: n in Neighbours(i) && Linked(b[i := newColor], oldColor, n, j)
  {
    if j == i {
      assert IsPath(b, oldColor, [i]);
    }
    if Linked(b, oldColor, i, j) && j != i {
      SeedOut(b, i, oldColor, newColor, j);
    }
    if exists n :: n in Neighbours(i) && Linked(b[i := newColor], oldColor, n, j) {
      var n :| n in Neighbours(i) && Linked(b[i := newColor], oldColor, n, j);
      SeedIn(b, i, oldColor, newColor, n, j);
    }
  }

  /**
    Recolouring the region of `n` (from `b1`, giving `b2`) removes exactly that
    region from every other region and leaves the rest of each region alone.
  */
  lemma RecolourLinks(b1: seq<nat>, b2: seq<nat>, n: int, oldColor: nat, newColor: nat, x: int, j: int)
    requires |b1| == Cells && |b2| == Cells && oldColor != newColor
    requires forall y :: 0 <= y < Cells ==> b2[y] == (if Linked(b1, oldColor, n, y) then newColor else b1[y])
    ensures Linked(b2, oldColor, x, j) <==> Linked(b1, oldColor, x, j) && !Linked(b1, oldColor, n, j)
  {
    if Linked(b2, oldColor, x, j) {
      var p :| IsPath(b2, oldColor, p) && p[0] == x && p[|p| - 1] == j;
      assert forall k :: 0 <= k < |p| ==> b2[p[k]] == oldColor && !Linked(b1, oldColor, n, p[k]) && b1[p[k]] == oldColor;
      assert IsPath(b1, oldColor, p);
    }
    if Linked(b1, oldColor, x, j) && !Linked(b1, oldColor, n, j) {
      var p :| IsPath(b1, oldColor, p) && p[0] == x && p[|p| - 1] == j;
      forall k | 0 <= k < |p|
        ensures b2[p[k]] == oldColor
      {
        LinkAlong(b1, oldColor, n, p, k);
      }
      assert IsPath(b2, oldColor, p);
    }
  }

  /** The fill from `i` recolours exactly the region of colour `oldColor` that contains `i`. */
  lemma {:induction false} FillRecoloursRegion(b: seq<nat>, i: int, oldColor: nat, newColor: nat)
    requires |b| == Cells && oldColor != newColor
    ensures forall j :: 0 <= j < Cells ==> Fill(b, i, oldColor, newColor)[j] == (if Linked(b, oldColor, i, j) then newColor else b[j])
    decreases Count(b, oldColor), 0, 0
  {
    if i < 0 || i >= Cells || b[i] != oldColor {
      forall j | 0 <= j < Cells
        ensures !Linked(b, oldColor, i, j)
      {
        LinkedStart(b, oldColor, i, j);
      }
    } else {
      var b1 := b[i := newColor];
      CountUpdate(b, i, newColor, oldColor);
      FillAllRecolours(b1, Neighbours(i), oldColor, newColor);
      forall j | 0 <= j < Cells
        ensures Fill(b, i, oldColor, newColor)[j] == (if Linked(b, oldColor, i, j) then newColor else b[j])
      {
        SplitAtSeed(b, i, oldColor, newColor, j);
      }
    }
  }

  /** The fills from `ns` in turn recolour exactly the union of the regions, on the starting board, of `ns`. */
  lemma {:induction false} FillAllRecolours(b: seq<nat>, ns: seq<int>, oldColor: nat, newColor: nat)
    requires |b| == Cells && oldColor != newColor
    ensures forall j :: 0 <= j < Cells ==>
              FillAll(b, ns, oldColor, newColor)[j] == (if exists n :: n in ns && Linked(b, oldColor, n, j) then newColor else b[j])
    decreases Count(b, oldColor), 1, |ns|
  {
    if |ns| > 0 {
      var b2 := Fill(b, ns[0], oldColor, newColor);
      FillRecoloursRegion(b, ns[0], oldColor, newColor);
      FillAllRecolours(b2, ns[1..], oldColor, newColor);
      forall j | 0 <= j < Cells
        ensures FillAll(b, ns, oldColor, newColor)[j] == (if exists n :: n in ns && Linked(b, oldColor, n, j) then newColor else b[j])
      {
        forall n
          ensures Linked(b2, oldColor, n, j) <==> Linked(b, oldColor, n, j) && !Linked(b, oldColor, ns[0], j)
        {
          RecolourLinks(b, b2, ns[0], oldColor, newColor, n, j);
        }
        assert forall n :: n in ns <==> n == ns[0] || n in ns[1..];
      }
    }
  }
}

=== FILE: onitama.dfy ===
/**
  The Onitama rule engine: a 5x5 board, four students and one master per side,
  two cards in each hand and one in reserve. A state is an immutable value and
  every operation is a pure function of it.

  Cells are numbered row by row, 0..24; Blue starts on row 0 and Red on row 4.
*/
module Onitama {
  import opened Common
  import opened OnitamaDeck

  const Width: nat := 5
  const Cells: nat := 25
  /** Number of moves after which the game is called a draw. */
  const MoveCap: nat := 1000
  /** The cell Blue's master starts on; Red wins by moving its master there. */
  const BlueTemple: nat := 2
  /** The cell Red's master starts on; Blue wins by moving its master there. */
  const RedTemple: nat := 22

  /** `'R'`/`'B'` is a master (`master == true`), `'r'`/`'b'` a student. */
  datatype Piece = Piece(team: Team, master: bool)

  type Cell = Option<Piece>

  datatype Move = Ordinary(card: nat, src: nat, dst: nat) | Pass(card: nat)

  datatype State = State(board: seq<Cell>, team: Team, cards: Hands, nmoves: nat)

  predicate WellFormed(s: State)
  {
    |s.board| == Cells && |s.cards.r| == 2 && |s.cards.b| == 2 && InDeck(s.cards)
  }

  /** The move refers to a card of the deck and to cells of the board. */
  predicate Fits(m: Move)
  {
    m.card < DeckSize && (m.Ordinary? ==> m.src < Cells && m.dst < Cells)
  }

  /** The cell holds a piece of `t` (the source compares the upper-cased letter with the team). */
  predicate Owns(c: Cell, t: Team)
  {
    c.Some? && c.value.team == t
  }

  /** The cards of the side to move. */
  function Hand(s: State): seq<nat>
  {
    HandOf(s.cards, s.team)
  }

  /** +1 for Red, who adds card offsets; -1 for Blue, who subtracts them. */
  function Direction(t: Team): int
  {
    if t == Red then 1 else -1
  }

  /** Where offset `o` takes a piece of `t` standing on `src`, if that is on the board. */
  function Target(t: Team, src: nat, o: Offset): (dst: Option<nat>)
    requires src < Cells
    ensures dst.Some? <==>
              0 <= src / Width + Direction(t) * o.dr < Width && 0 <= src % Width + Direction(t) * o.dc < Width
    ensures dst.Some? ==>
              && dst.value < Cells
              && dst.value / Width == src / Width + Direction(t) * o.dr
              && dst.value % Width == src % Width + Direction(t) * o.dc
  {
    var row := src / Width;
    var col := src % Width;
    var nr := if t == Red then row + o.dr else row - o.dr;
    var nc := if t == Red then col + o.dc else col - o.dc;
    if 0 <= nr < Width && 0 <= nc < Width then Some(nr * Width + nc) else None
  }

  /** Some offset of `card` takes a piece of `t` from `src` to `dst`. */
  predicate Reaches(t: Team, card: nat, src: nat, dst: nat)
    requires card < DeckSize && src < Cells
  {
    exists o :: o in Deck[card].moves && Target(t, src, o) == Some(dst)
  }

  /** The moves of the piece on `src` with offsets `offs`, in offset order. */
  function OffsetMoves(b: seq<Cell>, t: Team, card: nat, src: nat, offs: seq<Offset>): (ms: seq<Move>)
    requires |b| == Cells && src < Cells
    ensures forall m :: m in ms <==>
              && m.Ordinary? && m.card == card && m.src == src && m.dst < Cells
              && !Owns(b[m.dst], t)
              && exists o :: o in offs && Target(t, src, o) == Some(m.dst)
  {
    if |offs| == 0 then []
    else
      var rest := OffsetMoves(b, t, card, src, offs[1..]);
      var dst := Target(t, src, offs[0]);
      assert forall o :: o in offs <==> o == offs[0] || o in offs[1..];
      if dst.Some? && !Owns(b[dst.value], t) then [Ordinary(card, src, dst.value)] + rest else rest
  }

  /** The moves with `card` of every piece of `t` on cells `from`..24, in cell order. */
  function SourceMoves(b: seq<Cell>, t: Team, card: nat, from: nat): (ms: seq<Move>)
    requires |b| == Cells && card < DeckSize && from <= Cells
    ensures forall m :: m in ms <==>
              && m.Ordinary? && m.card == card && from <= m.src < Cells && m.dst < Cells
              && Owns(b[m.src], t) && !Owns(b[m.dst], t) && Reaches(t, card, m.src, m.dst)
    decreases Cells - from
  {
    if from == Cells then []
    else
      var here := if Owns(b[from], t) then OffsetMoves(b, t, card, from, Deck[card].moves) else [];
      here + SourceMoves(b, t, card, from + 1)
  }

  /** The moves with each card of `hand` in turn. */
  function HandMoves(b: seq<Cell>, t: Team, hand: seq<nat>): (ms: seq<Move>)
    requires |b| == Cells && forall k :: 0 <= k < |hand| ==> hand[k] < DeckSize
    ensures forall m :: m in ms <==>
              && m.Ordinary? && m.card in hand && m.src < Cells && m.dst < Cells
              && Owns(b[m.src], t) && !Owns(b[m.dst], t) && Reaches(t, m.card, m.src, m.dst)
  {
    if |hand| == 0 then []
    else
      assert forall c :: c in hand <==> c == hand[0] || c in hand[1..];
      SourceMoves(b, t, hand[0], 0) + HandMoves(b, t, hand[1..])
  }

  /**
    An ordinary move from state `s`: a card of the mover's hand, a piece of the
    mover on `src`, and an on-board `dst` reached by one of the card's offsets
    (mirrored for Blue) that does not hold a piece of the mover.
  */
  predicate IsOrdinaryMove(s: State, m: Move)
    requires WellFormed(s)
  {
    && m.Ordinary? && m.card in Hand(s) && m.src < Cells && m.dst < Cells
    && Owns(s.board[m.src], s.team) && !Owns(s.board[m.dst], s.team)
    && Reaches(s.team, m.card, m.src, m.dst)
  }

  function OrdinaryMoves(s: State): (ms: seq<Move>)
    requires WellFormed(s)
    ensures forall m :: m in ms <==> IsOrdinaryMove(s, m)
  {
    HandMoves(s.board, s.team, Hand(s))
  }

  /** One pass per card of `hand`, in hand order. */
  function PassMoves(hand: seq<nat>): (ms: seq<Move>)
    ensures |ms| == |hand|
    ensures forall k :: 0 <= k < |hand| ==> ms[k] == Pass(hand[k])
  {
    seq(|hand|, k requires 0 <= k < |hand| => Pass(hand[k]))
  }

  /** `getLegalMoves`: the ordinary moves, or the mandatory passes when there are none. */
  function LegalMoves(s: State): (ms: seq<Move>)
    requires WellFormed(s)
    ensures |ms| > 0
    ensures forall m :: m in ms ==> Fits(m)
  {
    var ordinary := OrdinaryMoves(s);
    if |ordinary| == 0 then PassMoves(Hand(s)) else ordinary
  }

  /**
    `makeMove`: the played card becomes the reserve and the old reserve takes
    its slot in the mover's hand; an ordinary move carries the source piece to
    the destination (capturing whatever stood there) and empties the source.
    The source does not re-check legality: a card missing from the hand leaves
    the hand as it was, since `indexOf` then yields -1 and the write lands
    outside the array's elements.
  */
  function MakeMove(s: State, m: Move): (t: State)
    requires WellFormed(s) && Fits(m)
    ensures WellFormed(t)
    ensures t.team == Opponent(s.team) && t.nmoves == s.nmoves + 1
    ensures t.cards.n == m.card
    ensures HandOf(t.cards, Opponent(s.team)) == HandOf(s.cards, Opponent(s.team))
    ensures m.card in Hand(s) ==>
              exists k :: 0 <= k < |Hand(s)| && Hand(s)[k] == m.card && m.card !in Hand(s)[..k]
                && HandOf(t.cards, s.team) == Hand(s)[k := s.cards.n]
    ensures m.card !in Hand(s) ==> HandOf(t.cards, s.team) == Hand(s)
    ensures m.Pass? ==> t.board == s.board
    ensures m.Ordinary? ==>
              && t.board[m.src] == None
              && (m.src != m.dst ==> t.board[m.dst] == s.board[m.src])
              && forall i :: 0 <= i < Cells && i != m.src && i != m.dst ==> t.board[i] == s.board[i]
  {
    var hand := ReplaceFirst(Hand(s), m.card, s.cards.n);
    var cards := if s.team == Red then Hands(hand, s.cards.b, m.card) else Hands(s.cards.r, hand, m.card);
    var board := match m
      case Pass(_) => s.board
      case Ordinary(_, src, dst) => s.board[dst := s.board[src]][src := None];
    State(board, Opponent(s.team), cards, s.nmoves + 1)
  }

  const RedMaster: Cell := Some(Piece(Red, true))
  const BlueMaster: Cell := Some(Piece(Blue, true))

  predicate IsDraw(s: State)
  {
    s.nmoves >= MoveCap
  }

  /** Red's master on Blue's temple, Blue's master on Red's temple, or a master captured. */
  predicate HasWinner(s: State)
    requires |s.board| == Cells
  {
    s.board[BlueTemple] == RedMaster || s.board[RedTemple] == BlueMaster
    || RedMaster !in s.board || BlueMaster !in s.board
  }

  predicate IsTerminal(s: State)
    requires |s.board| == Cells
  {
    IsDraw(s) || HasWinner(s)
  }

  /** `t` has won: its master stands on the opposing temple, or the opposing master is gone. */
  predicate Wins(s: State, t: Team)
    requires |s.board| == Cells
  {
    if t == Red then s.board[BlueTemple] == RedMaster || BlueMaster !in s.board
    else s.board[RedTemple] == BlueMaster || RedMaster !in s.board
  }

  /**
    `getReward(team)`: 0 for a draw and 1 otherwise, whatever team is asked
    about; the search reads it as the result for the side that moved last.
  */
  function Reward(s: State, team: Team): (r: int)
    ensures r == 0 <==> IsDraw(s)
    ensures r == 0 || r == 1
  {
    if IsDraw(s) then 0 else 1
  }

  /** `_initializeBoard`: Blue on row 0, Red on row 4, masters in the middle column. */
  function InitialBoard(): (b: seq<Cell>)
    ensures |b| == Cells
    ensures forall i :: 0 <= i < Cells ==>
              b[i] == (if i < Width then Some(Piece(Blue, i == BlueTemple))
                       else if i >= Cells - Width then Some(Piece(Red, i == RedTemple))
                       else None)
  {
    seq(Cells, i =>
      if i < Width then Some(Piece(Blue, i % Width == 2))
      else if i >= 4 * Width then Some(Piece(Red, i % Width == 2))
      else None)
  }

  /**
    The constructor: absent arguments take their defaults. The default cards
    are dealt from the whole deck in the order `shuffled`, which stands for
    the random sort; the default side to move is the reserve card's first mover,
    which the source can only look up for a reserve card of the deck.
  */
  function NewState(board: Option<seq<Cell>>, team: Option<Team>, cards: Option<Hands>, nmoves: nat, shuffled: seq<nat>): (s: State)
    requires cards.None? ==> IsShuffleOf(shuffled, All)
    requires cards.Some? && team.None? ==> cards.value.n < DeckSize
    ensures s.board == (if board.Some? then board.value else InitialBoard())
    ensures cards.Some? ==> s.cards == cards.value
    ensures cards.None? ==> DistinctDeal(s.cards) && InDeck(s.cards) && CardBag(s.cards) == multiset(shuffled[..5])
    ensures team.None? ==> s.cards.n < DeckSize && s.team == Deck[s.cards.n].first
    ensures team.Some? ==> s.team == team.value
    ensures s.nmoves == nmoves
  {
    var b := if board.Some? then board.value else InitialBoard();
    var h := if cards.Some? then cards.value else InitializeCards(All, shuffled);
    var t := if team.Some? then team.value else Deck[h.n].first;
    State(b, t, h, nmoves)
  }

  /** The state a new game starts in. */
  function Initial(shuffled: seq<nat>): (s: State)
    requires IsShuffleOf(shuffled, All)
    ensures WellFormed(s) && DistinctDeal(s.cards)
    ensures s.team == Deck[s.cards.n].first && s.nmoves == 0
    ensures !IsTerminal(s)
  {
    var s := NewState(None, None, None, 0, shuffled);
    assert s.board[BlueTemple] == BlueMaster && s.board[RedTemple] == RedMaster;
    assert s.board[0] == Some(Piece(Blue, false));
    s
  }

  function TeamChar(t: Team): char
  {
    if t == Red then 'R' else 'B'
  }

  /** `getCurrentTeam`: the letter of the side to move. */
  function CurrentTeam(s: State): (c: char)
    ensures c == 'R' <==> s.team == Red
    ensures c == 'B' <==> s.team == Blue
  {
    TeamChar(s.team)
  }

  /** A piece's letter, upper case for a master; `'_'` for an empty cell. */
  function CellChar(c: Cell): char
  {
    match c
    case None => '_'
    case Some(p) => if p.master then TeamChar(p.team) else (if p.team == Red then 'r' else 'b')
  }

  /** Row `r` of the board, one character per cell. */
  function Row(b: seq<Cell>, r: nat): string
    requires r < Width && |b| == Cells
  {
    seq(Width, c requires 0 <= c < Width => CellChar(b[r * Width + c]))
  }

  /** Rows `r`..4, separated by `'/'`. */
  function Rows(b: seq<Cell>, r: nat): string
    requires r < Width && |b| == Cells
    decreases Width - r
  {
    if r == Width - 1 then Row(b, r) else Row(b, r) + "/" + Rows(b, r + 1)
  }

  /** `toString`: the side to move, then the board row by row. Cards and the move counter are not part of it. */
  function Label(s: State): string
    requires |s.board| == Cells
  {
    [TeamChar(s.team), ' ', ':', '\n'] + Rows(s.board, 0)
  }
}

=== FILE: onitama_codec.dfy ===
/**
  Onitama move tokens: `"<card>,<src>,<dst>"` for an ordinary move and
  `"pass <card>"` for a pass, all numbers in decimal.
*/
module OnitamaCodec {
  import opened Common
  import opened Decimal
  import opened Onitama

  /** The token `getLegalMoves` produces for a move. */
  function Encode(m: Move): string
  {
    match m
    case Ordinary(card, src, dst) => FromNat(card) + "," + FromNat(src) + "," + FromNat(dst)
    case Pass(card) => "pass " + FromNat(card)
  }

  /**
    How `makeMove` reads a token: a token starting with `pass` is split on
    spaces and its second field is the card; any other token is split on commas
    into card, source and destination. `None` stands for a field that is
    missing or does not start with a digit.
  */
  function Parse(tok: string): Option<Move>
  {
    if StartsWith(tok, "pass") then
      var fields := Split(tok, ' ');
      if |fields| < 2 then None
      else
        match ParseInt(fields[1])
        case None => None
        case Some(card) => Some(Pass(card))
    else
      var fields := Split(tok, ',');
      if |fields| < 3 then None
      else
        match (ParseInt(fields[0]), ParseInt(fields[1]), ParseInt(fields[2]))
        case (Some(card), Some(src), Some(dst)) => Some(Ordinary(card, src, dst))
        case _ => None
  }

  /** The three comma-separated numbers of an ordinary token. */
  lemma SplitOrdinary(a: string, b: string, c: string)
    requires AllDigits(a) && AllDigits(b) && AllDigits(c)
    ensures Split(a + "," + b + "," + c, ',') == [a, b, c]
  {
    DigitsHaveNo(a, ',');
    DigitsHaveNo(b, ',');
    DigitsHaveNo(c, ',');
    assert a + "," + b + "," + c == a + [','] + (b + [','] + c);
    SplitFirst(a, b + [','] + c, ',');
    SplitFirst(b, c, ',');
    SplitWhole(c, ',');
  }

  lemma ParseEncodeOrdinary(card: nat, src: nat, dst: nat)
    ensures Parse(Encode(Ordinary(card, src, dst))) == Some(Ordinary(card, src, dst))
  {
    var a, b, c := FromNat(card), FromNat(src), FromNat(dst);
    var tok := a + "," + b + "," + c;
    assert tok[0] == a[0];
    assert !StartsWith(tok, "pass");
    SplitOrdinary(a, b, c);
    assert a + "" == a && b + "" == b && c + "" == c;
    ParseIntFromNat(card, "");
    ParseIntFromNat(src, "");
    ParseIntFromNat(dst, "");
  }

  lemma ParseEncodePass(card: nat)
    ensures Parse(Encode(Pass(card))) == Some(Pass(card))
  {
    var d := FromNat(card);
    var tok := "pass " + d;
    assert StartsWith(tok, "pass");
    assert tok == "pass" + [' '] + d;
    SplitFirst("pass", d, ' ');
    DigitsHaveNo(d, ' ');
    SplitWhole(d, ' ');
    assert Split(tok, ' ') == ["pass", d];
    assert d + "" == d;
    ParseIntFromNat(card, "");
  }

  /** Every token recovers exactly the card and cells it was built from. */
  lemma ParseEncode(m: Move)
    ensures Parse(Encode(m)) == Some(m)
  {
    match m
    case Ordinary(card, src, dst) => ParseEncodeOrdinary(card, src, dst);
    case Pass(card) => ParseEncodePass(card);
  }

  /** Different moves never share a token. */
  lemma EncodeInjective(m1: Move, m2: Move)
    requires Encode(m1) == Encode(m2)
    ensures m1 == m2
  {
    ParseEncode(m1);
    ParseEncode(m2);
  }

  lemma ParseEncodeAll(ms: seq<Move>)
    ensures forall m :: m in ms ==> Parse(Encode(m)) == Some(m)
  {
    forall m | m in ms
      ensures Parse(Encode(m)) == Some(m)
    {
      ParseEncode(m);
    }
  }

  /** `getLegalMoves` as the source returns it: the legal moves' tokens, in the same order. */
  function LegalMoveTokens(s: State): (toks: seq<string>)
    requires WellFormed(s)
    ensures |toks| == |LegalMoves(s)|
    ensures forall k :: 0 <= k < |toks| ==> toks[k] == Encode(LegalMoves(s)[k]) && Parse(toks[k]) == Some(LegalMoves(s)[k])
  {
    var ms := LegalMoves(s);
    ParseEncodeAll(ms);
    seq(|ms|, k requires 0 <= k < |ms| => Encode(ms[k]))
  }

  /** `makeMove` on a token `getLegalMoves` offered: it plays the move the token was built from. */
  function MakeMoveToken(s: State, tok: string): (t: State)
    requires WellFormed(s) && tok in LegalMoveTokens(s)
    ensures exists m :: m in LegalMoves(s) && Encode(m) == tok && t == MakeMove(s, m)
  {
    var toks := LegalMoveTokens(s);
    var k :| 0 <= k < |toks| && toks[k] == tok;
    var m := LegalMoves(s)[k];
    assert Parse(tok) == Some(m) && Encode(m) == tok;
    MakeMove(s, Parse(tok).value)
  }
}

=== FILE: onitama_deck.dfy ===
/**
  The Onitama card deck: 32 movement cards, each a list of (row, column)
  offsets written from Red's side of the board, plus the colour of the side
  that moves first when the card starts in reserve. Also the deterministic part
  of dealing: slicing a shuffled list of card indices into two hands and a reserve.
*/
module OnitamaDeck {

  /** Red is the side the source encodes as `team == true`. */
  datatype Team = Red | Blue

  function Opponent(t: Team): (o: Team)
    ensures o != t
  {
    if t == Red then Blue else Red
  }

  /** A step of `dr` rows and `dc` columns, as seen from Red's side. */
  datatype Offset = Offset(dr: int, dc: int)

  /** The display name and colour of a card carry no rules and are not modelled. */
  datatype Card = Card(first: Team, moves: seq<Offset>)

  const DeckSize: nat := 32

  const Deck: seq<Card> := [
      Card(Red, [Offset(-1, -2), Offset(-1, 2), Offset(1, -1), Offset(1, 1)]),  //  0 Dragon
      Card(Red, [Offset(-1, -1), Offset(-1, 1), Offset(0, -1), Offset(0, 1)]),  //  1 Elephant
      Card(Red, [Offset(-1, 0), Offset(0, -1), Offset(0, 1)]),  //  2 Boar
      Card(Red, [Offset(-1, -1), Offset(-1, 1), Offset(1, 0)]),  //  3 Mantis
      Card(Blue, [Offset(-2, 0), Offset(1, 0)]),  //  4 Tiger
      Card(Blue, [Offset(-1, -1), Offset(-1, 1), Offset(1, -1), Offset(1, 1)]),  //  5 Monkey
      Card(Blue, [Offset(-1, 0), Offset(0, -2), Offset(0, 2)]),  //  6 Crab
      Card(Blue, [Offset(-1, 0), Offset(1, -1), Offset(1, 1)]),  //  7 Crane
      Card(Blue, [Offset(-1, 1), Offset(0, 2), Offset(1, -1)]),  //  8 Rabbit
      Card(Red, [Offset(-1, 1), Offset(0, -1), Offset(0, 1), Offset(1, -1)]),  //  9 Rooster
      Card(Blue, [Offset(-1, 0), Offset(0, 1), Offset(1, 0)]),  // 10 Ox
      Card(Red, [Offset(-1, 1), Offset(0, -1), Offset(1, 1)]),  // 11 Cobra
      Card(Red, [Offset(-1, -1), Offset(0, -2), Offset(1, 1)]),  // 12 Frog
      Card(Blue, [Offset(-1, -1), Offset(0, -1), Offset(0, 1), Offset(1, 1)]),  // 13 Goose
      Card(Red, [Offset(-1, 0), Offset(0, -1), Offset(1, 0)]),  // 14 Horse
      Card(Blue, [Offset(-1, -1), Offset(0, 1), Offset(1, -1)]),  // 15 Eel
      Card(Blue, [Offset(-1, -2), Offset(-1, 2), Offset(1, 0)]),  // 16 Giraffe
      Card(Red, [Offset(-2, -1), Offset(-2, 1), Offset(2, 0)]),  // 17 Kirin
      Card(Blue, [Offset(-1, -1), Offset(-1, 1), Offset(0, -2), Offset(0, 2)]),  // 18 Phoenix
      Card(Red, [Offset(0, -2), Offset(0, 2), Offset(1, -1), Offset(1, 1)]),  // 19 Turtle
      Card(Red, [Offset(-1, 1), Offset(0, 1), Offset(1, 1)]),  // 20 Fox
      Card(Red, [Offset(-1, 0), Offset(-1, 1), Offset(1, -1)]),  // 21 Panda
      Card(Blue, [Offset(-1, 0), Offset(0, 2), Offset(1, -1)]),  // 22 Sea Snake
      Card(Blue, [Offset(-1, 0), Offset(0, 1), Offset(1, -1)]),  // 23 Mouse
      Card(Blue, [Offset(-1, 0), Offset(-1, 2), Offset(1, -1)]),  // 24 Tanuki
      Card(Blue, [Offset(-1, 1), Offset(0, -2), Offset(1, -1)]),  // 25 Sable
      Card(Blue, [Offset(-1, -1), Offset(0, -1), Offset(1, -1)]),  // 26 Dog
      Card(Blue, [Offset(-1, -1), Offset(-1, 0), Offset(1, 1)]),  // 27 Bear
      Card(Red, [Offset(-1, 0), Offset(0, -2), Offset(1, 1)]),  // 28 Viper
      Card(Red, [Offset(-1, 0), Offset(0, -1), Offset(1, 1)]),  // 29 Rat
      Card(Red, [Offset(-1, -2), Offset(-1, 0), Offset(1, 1)]),  // 30 Iguana
      Card(Red, [Offset(-1, -1), Offset(0, 2), Offset(1, 1)])  // 31 Otter
    ]

  /** Which part of the deck a game is dealt from. */
  datatype Edition = Base | Sensei | All

  function EditionLow(e: Edition): nat
  {
    if e == Sensei then 16 else 0
  }

  function EditionHigh(e: Edition): nat
  {
    if e == Base then 16 else DeckSize
  }

  /** `shuffled` is an ordering of exactly the card indices of edition `e`. */
  predicate IsShuffleOf(shuffled: seq<nat>, e: Edition)
  {
    && |shuffled| == EditionHigh(e) - EditionLow(e)
    && (forall k :: 0 <= k < |shuffled| ==> EditionLow(e) <= shuffled[k] < EditionHigh(e))
    && (forall j, k :: 0 <= j < k < |shuffled| ==> shuffled[j] != shuffled[k])
  }

  /** The two hands and the neutral reserve card. */
  datatype Hands = Hands(r: seq<nat>, b: seq<nat>, n: nat)

  function HandOf(h: Hands, t: Team): seq<nat>
  {
    if t == Red then h.r else h.b
  }

  /** The five card indices in play, counted with multiplicity. */
  function CardBag(h: Hands): multiset<nat>
  {
    multiset(h.r) + multiset(h.b) + multiset{h.n}
  }

  predicate InDeck(h: Hands)
  {
    && (forall k :: 0 <= k < |h.r| ==> h.r[k] < DeckSize)
    && (forall k :: 0 <= k < |h.b| ==> h.b[k] < DeckSize)
    && h.n < DeckSize
  }

  /** Two cards per hand and five different cards in play. */
  predicate DistinctDeal(h: Hands)
  {
    && |h.r| == 2 && |h.b| == 2
    && h.r[0] != h.r[1] && h.b[0] != h.b[1]
    && h.r[0] !in h.b && h.r[1] !in h.b
    && h.n !in h.r && h.n !in h.b
  }

  /** Deals from a shuffled edition: Red takes the first two, Blue the next two, the fifth is the reserve. */
  function InitializeCards(e: Edition, shuffled: seq<nat>): (h: Hands)
    requires IsShuffleOf(shuffled, e)
    ensures DistinctDeal(h) && InDeck(h)
    ensures forall x :: x in CardBag(h) ==> EditionLow(e) <= x < EditionHigh(e)
    ensures CardBag(h) == multiset(shuffled[..5])
  {
    assert shuffled[..5] == shuffled[..2] + shuffled[2..4] + [shuffled[4]];
    Hands(shuffled[..2], shuffled[2..4], shuffled[4])
  }
}

=== FILE: onitama_proofs.dfy ===
/** Properties of the Onitama rule engine that relate several of its operations. */
module OnitamaProofs {
  import opened Common
  import opened OnitamaDeck
  import opened Onitama

  /** The ordinary moves offered are exactly the moves `IsOrdinaryMove` describes. */
  lemma OrdinaryMovesAreLegal(s: State, m: Move)
    requires WellFormed(s)
    ensures (m in LegalMoves(s) && m.Ordinary?) <==> IsOrdinaryMove(s, m)
  {
  }

  /**
    Every ordinary legal move starts on a piece of the mover, ends on the board
    at the card offset added (Red) or subtracted (Blue), and does not land on a
    piece of the mover.
  */
  lemma LegalMoveGeometry(s: State, m: Move)
    requires WellFormed(s) && m in LegalMoves(s) && m.Ordinary?
    ensures m.card in Hand(s) && m.src < Cells && m.dst < Cells
    ensures Owns(s.board[m.src], s.team) && !Owns(s.board[m.dst], s.team)
    ensures s.team == Red ==>
              exists o :: o in Deck[m.card].moves && m.dst / Width == m.src / Width + o.dr && m.dst % Width == m.src % Width + o.dc
    ensures s.team == Blue ==>
              exists o :: o in Deck[m.card].moves && m.dst / Width == m.src / Width - o.dr && m.dst % Width == m.src % Width - o.dc
  {
    OrdinaryMovesAreLegal(s, m);
    var o :| o in Deck[m.card].moves && Target(s.team, m.src, o) == Some(m.dst);
  }

  /** The generated ordinary moves are empty exactly when the rules allow no ordinary move. */
  lemma NoOrdinaryMove(s: State)
    requires WellFormed(s)
    ensures |OrdinaryMoves(s)| == 0 <==> forall m :: !IsOrdinaryMove(s, m)
  {
    if |OrdinaryMoves(s)| > 0 {
      assert IsOrdinaryMove(s, OrdinaryMoves(s)[0]);
    }
  }

  /** Passes are offered exactly when no ordinary move is generated, and then one per hand card. */
  lemma PassesWhenStuck(s: State)
    requires WellFormed(s)
    ensures (exists m :: m in LegalMoves(s) && m.Pass?) <==> |OrdinaryMoves(s)| == 0
    ensures |OrdinaryMoves(s)| == 0 ==> LegalMoves(s) == [Pass(Hand(s)[0]), Pass(Hand(s)[1])]
  {
  }

  /**
    Passes are offered exactly when no ordinary move exists, and then there is
    one pass per card of the mover's hand, in hand order, and nothing else.
  */
  lemma PassRule(s: State)
    requires WellFormed(s)
    ensures (exists m :: m in LegalMoves(s) && m.Pass?) <==> (forall m :: !IsOrdinaryMove(s, m))
    ensures (forall m :: !IsOrdinaryMove(s, m)) ==> LegalMoves(s) == [Pass(Hand(s)[0]), Pass(Hand(s)[1])]
  {
    NoOrdinaryMove(s);
    PassesWhenStuck(s);
  }

  /** Every legal move plays a card from the mover's hand. */
  lemma LegalCardInHand(s: State, m: Move)
    requires WellFormed(s) && m in LegalMoves(s)
    ensures m.card in Hand(s)
  {
    if m.Ordinary? {
      OrdinaryMovesAreLegal(s, m);
    } else {
      assert LegalMoves(s) == PassMoves(Hand(s));
    }
  }

  /** No card of the deck has the null offset. */
  lemma NoNullOffset(card: nat)
    requires card < DeckSize
    ensures Offset(0, 0) !in Deck[card].moves
  {
  }

  /** A legal ordinary move always goes somewhere else, so the moved piece ends up on the destination. */
  lemma LegalMoveRelocates(s: State, m: Move)
    requires WellFormed(s) && m in LegalMoves(s) && m.Ordinary?
    ensures m.src != m.dst
    ensures MakeMove(s, m).board[m.dst] == s.board[m.src]
    ensures MakeMove(s, m).board[m.src] == None
  {
    OrdinaryMovesAreLegal(s, m);
    var o :| o in Deck[m.card].moves && Target(s.team, m.src, o) == Some(m.dst);
    NoNullOffset(m.card);
    assert o != Offset(0, 0);
  }

  lemma BagSwap(h: seq<nat>, other: seq<nat>, n: nat, k: nat)
    requires k < |h|
    ensures multiset(h[k := n]) + multiset(other) + multiset{h[k]} == multiset(h) + multiset(other) + multiset{n}
    ensures multiset(other) + multiset(h[k := n]) + multiset{h[k]} == multiset(other) + multiset(h) + multiset{n}
  {
  }

  /** Five different cards stay different when a hand card and the reserve trade places. */
  lemma DistinctSwap(h: seq<nat>, other: seq<nat>, n: nat, k: nat)
    requires k < |h| && DistinctDeal(Hands(h, other, n))
    ensures DistinctDeal(Hands(h[k := n], other, h[k]))
  {
  }

  lemma DistinctMirror(h: Hands)
    ensures DistinctDeal(h) <==> DistinctDeal(Hands(h.b, h.r, h.n))
  {
  }

  /**
    Playing a card of the mover's hand rotates the cards: the five cards in
    play are the same afterwards, and five different cards stay five different cards.
  */
  lemma CardRotation(s: State, m: Move)
    requires WellFormed(s) && Fits(m) && m.card in Hand(s)
    ensures CardBag(MakeMove(s, m).cards) == CardBag(s.cards)
    ensures DistinctDeal(s.cards) ==> DistinctDeal(MakeMove(s, m).cards)
  {
    var t := MakeMove(s, m);
    var h, n := Hand(s), s.cards.n;
    var other := HandOf(s.cards, Opponent(s.team));
    var k :| 0 <= k < |h| && h[k] == m.card && HandOf(t.cards, s.team) == h[k := n];
    BagSwap(h, other, n, k);
    if s.team == Red {
      assert t.cards == Hands(h[k := n], other, h[k]);
      if DistinctDeal(s.cards) {
        DistinctSwap(h, other, n, k);
      }
    } else {
      assert t.cards == Hands(other, h[k := n], h[k]);
      if DistinctDeal(s.cards) {
        DistinctMirror(s.cards);
        DistinctSwap(h, other, n, k);
        DistinctMirror(t.cards);
      }
    }
  }

  /** The card rotation of every legal move. */
  lemma CardsConserved(s: State, m: Move)
    requires WellFormed(s) && m in LegalMoves(s)
    ensures CardBag(MakeMove(s, m).cards) == CardBag(s.cards)
    ensures DistinctDeal(s.cards) ==> DistinctDeal(MakeMove(s, m).cards)
  {
    LegalCardInHand(s, m);
    CardRotation(s, m);
  }

  /**
    The side to move keeps its master on the board when its piece goes from a
    cell it owns to a different cell it does not own (or when it passes), and
    the opponent's master does not reach the mover's temple.
  */
  lemma MoveKeepsMaster(s: State, m: Move)
    requires WellFormed(s) && Fits(m) && !IsTerminal(s)
    requires m.Ordinary? ==> m.src != m.dst && Owns(s.board[m.src], s.team) && !Owns(s.board[m.dst], s.team)
    ensures !Wins(MakeMove(s, m), Opponent(s.team))
  {
  }

  /**
    From a position that is not over, a legal move never hands the win to the
    opponent: if the game is now won, the side that just moved won it. This is
    why a reward of 1 means a win for the last mover.
  */
  lemma WinnerIsMover(s: State, m: Move)
    requires WellFormed(s) && !IsTerminal(s) && m in LegalMoves(s)
    ensures !Wins(MakeMove(s, m), Opponent(s.team))
    ensures HasWinner(MakeMove(s, m)) <==> Wins(MakeMove(s, m), s.team)
    ensures IsTerminal(MakeMove(s, m)) && !IsDraw(MakeMove(s, m)) ==> Reward(MakeMove(s, m), s.team) == 1
  {
    if m.Ordinary? {
      LegalMoveGeometry(s, m);
      LegalMoveRelocates(s, m);
    }
    MoveKeepsMaster(s, m);
  }

  /** Every move, a pass included, hands the turn to the other side, so the sides alternate. */
  lemma TurnAlternates(s: State, m1: Move, m2: Move)
    requires WellFormed(s) && Fits(m1) && Fits(m2)
    ensures CurrentTeam(MakeMove(s, m1)) != CurrentTeam(s)
    ensures CurrentTeam(MakeMove(MakeMove(s, m1), m2)) == CurrentTeam(s)
  {
  }

  /** `t` follows from `s` by a legal move. */
  ghost predicate Step(s: State, t: State)
  {
    WellFormed(s) && exists m :: m in LegalMoves(s) && t == MakeMove(s, m)
  }

  lemma StepCountsMove(s: State, t: State)
    requires Step(s, t)
    ensures t.nmoves == s.nmoves + 1 && WellFormed(t)
  {
  }

  /** `states` is a game: each state follows from the previous one by a legal move. */
  ghost predicate IsPlay(states: seq<State>)
  {
    forall k :: 0 <= k < |states| - 1 ==> Step(states[k], states[k + 1])
  }

  /** Along a game the move counter goes up by exactly one per move. */
  lemma {:induction false} PlayCountsMoves(states: seq<State>, k: nat)
    requires IsPlay(states) && k < |states|
    ensures states[k].nmoves == states[0].nmoves + k
  {
    if k > 0 {
      PlayCountsMoves(states, k - 1);
      StepCountsMove(states[k - 1], states[k]);
    }
  }

  /** The draw cap ends every game: the position after move 1000 is terminal. */
  lemma DrawCapEndsPlay(states: seq<State>)
    requires |states| > MoveCap && IsPlay(states)
    ensures |states[MoveCap].board| == Cells && IsTerminal(states[MoveCap])
  {
    PlayCountsMoves(states, MoveCap);
    StepCountsMove(states[MoveCap - 1], states[MoveCap]);
  }

  lemma RowsHead(b: seq<Cell>, r: nat, c: nat)
    requires |b| == Cells && r < Width && c < Width
    ensures c < |Rows(b, r)| && Rows(b, r)[c] == CellChar(b[r * 5 + c])
  {
  }

  lemma RowsTail(b: seq<Cell>, r: nat, i: nat)
    requires |b| == Cells && r < Width - 1 && i < |Rows(b, r + 1)|
    ensures 6 + i < |Rows(b, r)| && Rows(b, r)[6 + i] == Rows(b, r + 1)[i]
  {
  }

  /** The character of cell (`row`, `c`) sits six places further on for each row before it. */
  lemma {:induction false} RowsAt(b: seq<Cell>, r: nat, row: nat, c: nat)
    requires |b| == Cells && r <= row < Width && c < Width
    ensures 6 * (row - r) + c < |Rows(b, r)|
    ensures Rows(b, r)[6 * (row - r) + c] == CellChar(b[row * 5 + c])
    decreases row - r
  {
    if row == r {
      RowsHead(b, r, c);
    } else {
      RowsAt(b, r + 1, row, c);
      RowsTail(b, r, 6 * (row - r - 1) + c);
    }
  }

  /** Each cell's character sits at a fixed place in the label. */
  lemma LabelAt(s: State, i: nat)
    requires |s.board| == Cells && i < Cells
    ensures 4 + 6 * (i / 5) + i % 5 < |Label(s)|
    ensures Label(s)[4 + 6 * (i / 5) + i % 5] == CellChar(s.board[i])
  {
    RowsAt(s.board, 0, i / 5, i % 5);
  }

  lemma CellCharInjective(a: Cell, b: Cell)
    requires CellChar(a) == CellChar(b)
    ensures a == b
  {
  }

  /** The label determines the side to move and the whole board. */
  lemma LabelDeterminesPosition(s1: State, s2: State)
    requires |s1.board| == Cells && |s2.board| == Cells
    requires Label(s1) == Label(s2)
    ensures s1.team == s2.team && s1.board == s2.board
  {
    assert Label(s1)[0] == TeamChar(s1.team);
    forall i | 0 <= i < Cells
      ensures s1.board[i] == s2.board[i]
    {
      LabelAt(s1, i);
      LabelAt(s2, i);
      CellCharInjective(s1.board[i], s2.board[i]);
    }
  }
}
